=== FILE: README.md ===
# Voice bridge and local stores of the legal-advisor front end, in Dafny

This project models the parts of the web front end that have behaviour
worth stating, and proves properties of that model:

- the **real-time voice bridge** in `components/LiveVoiceInterface.tsx`:
  - the capture callback (mute test, volume level, PCM encoding);
  - the base64 codec;
  - the PCM decoder;
  - the playback scheduler, with its `nextStartTime` clock and its
    active-source set;
  - interruption;
  - the `connecting` / `connected` / `error` status;
  - the `mounted` guard;
  - the idempotent `cleanup`;
- the **chat-history store** in `storage.ts`;
- the **suggestion store** in `services/suggestionsService.ts`.

Everything is a pure function over immutable datatypes. Device time,
buffer durations, the RMS level of a frame, clock readings (`Date.now()`)
and the outcome of acquiring the API key and the microphone are inputs.
Audio sources are abstract handles numbered in creation order. The
browser's `localStorage` plus `JSON.parse` is an abstract store, one per
key. It is either missing, unparsable, or a parsed array (`LocalStore.Stored`).

Modules: `Wrappers` (Option/Result), `Base64`, `Pcm`, `Capture`,
`Playback`, `Bridge`, `LocalStore`, `History`, `Suggestions`.

Behaviour of the code worth noting, which the model reproduces:

- An interrupt resets the clock to `0` (line 130), not to the device's
  current time. `Playback.StartsAtNowAfterInterrupt` shows that the next
  buffer still starts exactly at device time, because of the `max` at
  line 96.
- The encode/decode round trip holds within 1/32768 only on [-1, 1).
  The sample 1.0 wraps to -32768 and comes back as -1.0
  (`Pcm.FullScaleWraps`, `Pcm.FullScaleRoundTrip`).
- As written, the mute button has no effect on capture (see "Findings").
  The capture callback always sees `isMuted == false`, so every frame
  updates the volume and is sent. `Bridge.ToggleMute` zeroes the volume
  once, and the next frame overwrites it. Only the corrected
  `Bridge.OnAudioProcess`, which reads the current flag, returns before
  the volume computation and the send (line 66) while muted.
- A chunk that fails to decode has already advanced the clock with the
  `max` of line 96, because that runs before `decodeAudioData`.
- A decoded chunk of zero bytes is dropped, because `createBuffer` with
  zero frames throws.
- The status is one of `connecting`, `connected` and `error`; closing the
  view unmounts the component rather than setting a status.
- The catch of `startSession` (lines 152-154) sets the error status without
  consulting `mounted`, so a session start that fails after unmount still
  writes the status (`Bridge.StatusLifecycle`).

## Model

| member | source | states |
|---|---|---|
| Base64.Encode | components/LiveVoiceInterface.tsx:299-306 | the encoded text has length 4·⌈n/3⌉ and uses only the RFC 4648 alphabet and `=` |
| Base64.EncodeSextets | components/LiveVoiceInterface.tsx:299-306 | every three bytes give four 6-bit groups; a final one or two bytes give two or three |
| Base64.DecodeSextets | components/LiveVoiceInterface.tsx:308-316 | n 6-bit groups (n mod 4 ≠ 1) give ⌊3n/4⌋ bytes |
| Base64.Decode | components/LiveVoiceInterface.tsx:308-316 | `atob` succeeds exactly when the text, after whitespace and up to two trailing `=` are removed, has length ≢ 1 (mod 4) and only alphabet characters; the byte count is then 3/4 of that length, rounded down |
| Base64.SextetsRoundTrip | components/LiveVoiceInterface.tsx:299-316 | grouping bytes into 6-bit values and joining them back is the identity |
| Base64.RoundTrip | components/LiveVoiceInterface.tsx:299-316 | `decode(encode(bytes)) == bytes` for every byte sequence |
| Base64.UnpaddedDecodes | components/LiveVoiceInterface.tsx:308-316 | the decoder also accepts the encoding with its padding left off |
| Base64.RejectsRemainderOne | components/LiveVoiceInterface.tsx:308-316 | text whose whitespace-free length is 1 mod 4 always fails to decode |
| Pcm.Trunc | components/LiveVoiceInterface.tsx:291 | the integer lies between 0 and x, less than one away from x (truncation toward zero) |
| Pcm.WrapInt16 | components/LiveVoiceInterface.tsx:289-291 | the stored value is congruent to the integer modulo 2^16, and equal to it when it is in range |
| Pcm.SampleInRange | components/LiveVoiceInterface.tsx:291 | for a sample in [-1, 1) the stored int16 is the truncation of s·32768, within one step of it |
| Pcm.FullScaleWraps | components/LiveVoiceInterface.tsx:291 | the sample 1.0 is stored as -32768 |
| Pcm.Int16RoundTrip | components/LiveVoiceInterface.tsx:294 | reading back the two little-endian bytes of an int16 gives the value |
| Pcm.BytePairRoundTrip | components/LiveVoiceInterface.tsx:324 | every byte pair is the little-endian encoding of the int16 it is read as |
| Pcm.PackLE | components/LiveVoiceInterface.tsx:294 | two bytes per value, and byte pair i reads back as value i |
| Pcm.UnpackLE | components/LiveVoiceInterface.tsx:324 | an even buffer gives half as many values, value i being the little-endian reading of bytes 2i and 2i+1 |
| Pcm.UnpackPack | components/LiveVoiceInterface.tsx:294 | viewing packed values again gives the values |
| Pcm.PackUnpack | components/LiveVoiceInterface.tsx:324 | every even-length buffer is the packing of its int16 view |
| Pcm.Quantize | components/LiveVoiceInterface.tsx:288-292 | one int16 per sample, in order |
| Pcm.CreateBlob | components/LiveVoiceInterface.tsx:287-297 | the payload is tagged `audio/pcm;rate=16000`, has the base64 length of 2 bytes per sample, and decodes to the little-endian int16 samples |
| Pcm.DecodeAudioData | components/LiveVoiceInterface.tsx:318-335 | succeeds exactly on a non-empty even byte count (odd fails with the RangeError); it gives bytes/2 frames of positive duration, frame i·32768 being int16_LE(bytes 2i, 2i+1), so every sample lies in [-1, 1) |
| Pcm.DecodePacked | components/LiveVoiceInterface.tsx:324-333 | decoding packed int16 values gives each value divided by 32768 |
| Pcm.FrameRoundTrip | components/LiveVoiceInterface.tsx:287-335 | for samples in [-1, 1), encode then decode returns each sample truncated to a multiple of 1/32768, strictly within 1/32768 of it |
| Pcm.FullScaleRoundTrip | components/LiveVoiceInterface.tsx:287-335 | a frame holding 1.0 decodes back as -1.0 |
| Capture.Volume | components/LiveVoiceInterface.tsx:75-76 | the level lies in [0, 1], never exceeds rms·5, and equals it below the clamp |
| Capture.FrameStep | components/LiveVoiceInterface.tsx:65-83 | muted ⇔ no volume update ⇔ no send; unmuted sets the volume to min(rms·5, 1) and sends exactly one chunk, tagged for 16 kHz PCM and carrying the frame's samples |
| Capture.SentFrameDecodes | components/LiveVoiceInterface.tsx:76-82 | the chunk an unmuted frame sends decodes back to the frame, each sample within 1/32768 for samples in [-1, 1) |
| Capture.MuteScenario | components/LiveVoiceInterface.tsx:66-82 | three muted frames send nothing; the frame after unmuting is sent |
| Playback.Advance | components/LiveVoiceInterface.tsx:96-99 | the clock becomes the larger of itself and device time; the active set is untouched |
| Playback.Start | components/LiveVoiceInterface.tsx:108-118 | the new source gets a fresh handle and starts at the clock; the clock moves to its end; no other source changes |
| Playback.Schedule | components/LiveVoiceInterface.tsx:96-118 | the buffer becomes the next handle, with a slot of the given duration starting at max(clock, now); the clock moves to that slot's end; every other slot is unchanged |
| Playback.Ended | components/LiveVoiceInterface.tsx:112-114 | only the ended source leaves the set; the clock is unchanged |
| Playback.Interrupt | components/LiveVoiceInterface.tsx:125-131 | every active source is stopped, the set becomes empty and the clock 0 |
| Playback.AdvancePreservesValid | components/LiveVoiceInterface.tsx:96-99 | advancing the clock keeps the scheduler invariant |
| Playback.StartPreservesValid | components/LiveVoiceInterface.tsx:108-118 | after scheduling, active sources still pairwise do not overlap and all end by the clock |
| Playback.EndedPreservesValid | components/LiveVoiceInterface.tsx:112-114 | removing an ended source keeps the invariant |
| Playback.InterruptPreservesValid | components/LiveVoiceInterface.tsx:125-131 | an interrupt leaves a valid (empty) schedule |
| Playback.InterruptIdempotent | components/LiveVoiceInterface.tsx:125-131 | a second interrupt stops nothing and changes nothing |
| Playback.StartsAtNowAfterInterrupt | components/LiveVoiceInterface.tsx:96-131 | after an interrupt the next buffer starts exactly at device time |
| Playback.Trace | components/LiveVoiceInterface.tsx:96-117 | a stream of buffers gets one slot each |
| Playback.TraceShape | components/LiveVoiceInterface.tsx:96-117 | each slot keeps its buffer's duration, never starts before arrival, and starts at max(previous end, arrival) |
| Playback.TraceOrdered | components/LiveVoiceInterface.tsx:96-117 | start times are non-decreasing, consecutive slots never overlap, and a buffer that arrives in time follows with no gap |
| Playback.BackToBackExample | components/LiveVoiceInterface.tsx:96-117 | two 100 ms buffers delivered together start 100 ms apart |
| Bridge.Mount | components/LiveVoiceInterface.tsx:14-29 | a new component is mounted, connecting, unmuted, holds no device, and has an empty schedule at clock 0 |
| Bridge.StartSession | components/LiveVoiceInterface.tsx:31-155 | no API key: error before any device; otherwise both contexts exist; refused microphone: error without stream or session; else stream and session acquired, status unchanged; nothing but the contexts, stream, session and status changes |
| Bridge.OnOpen | components/LiveVoiceInterface.tsx:54-87 | ignored once unmounted; otherwise status connected and the capture graph wired |
| Bridge.OnError | components/LiveVoiceInterface.tsx:136-139 | ignored once unmounted; otherwise status error |
| Bridge.AudioOf | components/LiveVoiceInterface.tsx:92-93 | audio is present exactly when the first part of the model turn carries non-empty inline data |
| Bridge.DecodeChunk | components/LiveVoiceInterface.tsx:101-106 | a payload gives a buffer of positive duration exactly when it is valid base64 of a non-empty even number of bytes, and the buffer is the one `decodeAudioData` builds from those bytes |
| Bridge.ReceiveAudio | components/LiveVoiceInterface.tsx:92-122 | a decodable payload is scheduled as the next handle; a payload that fails to decode moves the clock to max(clock, now) and changes nothing else |
| Bridge.OnMessage | components/LiveVoiceInterface.tsx:88-132 | ignored once unmounted; otherwise the audio branch runs first and starts the source it schedules; without an interrupt its result is the outcome and nothing is stopped; with one, exactly the sources active before plus the one just started are stopped, the set is emptied and the clock zeroed |
| Bridge.OnSourceEnded | components/LiveVoiceInterface.tsx:112-114 | only the ended source leaves the set |
| Bridge.OnMessagePreservesValid | components/LiveVoiceInterface.tsx:88-132 | every message keeps active sources non-overlapping and ending by the clock |
| Bridge.OnSourceEndedPreservesValid | components/LiveVoiceInterface.tsx:112-114 | the ended event keeps the invariant |
| Bridge.MessageMembership | components/LiveVoiceInterface.tsx:92-122 | without an interrupt a message adds at most one fresh source and no other source changes membership or slot |
| Bridge.AudioWithInterruptIsStopped | components/LiveVoiceInterface.tsx:88-132 | audio in the same message as an interrupt is scheduled and then stopped along with every other source |
| Bridge.OnAudioProcessAsWritten | components/LiveVoiceInterface.tsx:65-83 | as written, every frame sends its 16 kHz PCM chunk and sets the volume to min(rms·5, 1), whatever the mute state, changing nothing else |
| Bridge.MuteIgnoredAsWritten | components/LiveVoiceInterface.tsx:65-83 | after the user mutes a connected session, the as-written callback still sends the frame |
| Bridge.OnAudioProcess | components/LiveVoiceInterface.tsx:65-83 | reading the current mute state: a muted frame changes nothing and sends nothing; an unmuted one sends the frame's chunk and sets the volume to min(rms·5, 1) |
| Bridge.ToggleMute | components/LiveVoiceInterface.tsx:166-172 | flips the mute flag; muting a wired session zeroes the volume |
| Bridge.ToggleMuteTwice | components/LiveVoiceInterface.tsx:166-172 | two presses restore the flag and every other field; the volume is restored unless the capture graph is wired, in which case it is left at 0 |
| Bridge.CloseIfOpen | components/LiveVoiceInterface.tsx:189-195 | a context that exists ends up not running, and an absent one stays absent |
| Bridge.Cleanup | components/LiveVoiceInterface.tsx:174-201 | both contexts end up not running; a close call is issued exactly for a running context; the session close, track stops and capture-graph disconnect are issued exactly for what was acquired or wired; a stop is attempted on every active source |
| Bridge.CleanupIdempotent | components/LiveVoiceInterface.tsx:174-201 | a second cleanup changes nothing and issues no context close |
| Bridge.Unmount | components/LiveVoiceInterface.tsx:160-163 | unmounting clears `mounted` and issues the full cleanup: session close, track stops, graph disconnect, context closes and source stops, exactly as `cleanup` does |
| Bridge.UnmountedIgnoresCallbacks | components/LiveVoiceInterface.tsx:54-139 | after unmount, open, error and message callbacks are no-ops |
| Bridge.CloseButtonThenUnmount | components/LiveVoiceInterface.tsx:160-206 | the close button's cleanup followed by the unmount cleanup closes each context at most once, and both end up closed |
| Bridge.StatusTransitions | components/LiveVoiceInterface.tsx:54-155 | status changes only to error (start failure, transport error) or connected (open); messages and cleanup leave it |
| Bridge.ApplyStatus | components/LiveVoiceInterface.tsx:54-172 | a single event makes the status connected only if it is `onopen`, and error only if it is `onerror` or a failed `startSession`; no event remounts an unmounted component |
| Bridge.StatusLifecycle | components/LiveVoiceInterface.tsx:54-172 | over any run of events, including the completion of `startSession`, the status becomes connected only through `onopen` and error only through `onerror` or a failed `startSession`; once unmounted, the component stays unmounted and only a failed `startSession` (its catch has no `mounted` guard, lines 152-154) changes the status |
| LocalStore.Read | storage.ts:7-15 | a missing or unparsable value reads as the empty list |
| History.GetHistoryRaw | storage.ts:7-15 | a missing or unparsable history reads as empty; a parsed one as stored |
| History.FirstUser | storage.ts:35 | the index of the first user message: it is a user message and none precedes it |
| History.Prefix | storage.ts:38-43 | the result is a prefix of the text of length min(length, n) |
| History.Title | storage.ts:35-39 | the first 40 characters, followed by `...` exactly when the text is longer than 40 |
| History.FindIndex | storage.ts:54 | the first index with the id, or none when no entry has it |
| History.NewSession | storage.ts:35-52 | the record carries the id, entity, messages, clock, the first user message's title and the last message's 60-character preview |
| History.SaveSession | storage.ts:17-63 | no user message: null and the store unchanged; an existing id: that entry replaced in place, length and all other entries unchanged; a new id: the session prepended to the unchanged list |
| History.ShownOnly | storage.ts:68-72 | exactly the sessions that are non-empty and contain a user message |
| History.ShownOnlyConcat | storage.ts:68-72 | the filter keeps stored order |
| History.GetHistory | storage.ts:65-73 | exactly the stored sessions that are non-empty and contain a user message |
| History.GetHistoryKeepsOrder | storage.ts:65-73 | the listed sessions keep stored order: listing a concatenation lists each part in turn |
| History.GetSession | storage.ts:75-78 | present exactly when some entry has the id, and then it is the first such entry |
| History.Without | storage.ts:82 | exactly the entries with a different id |
| History.WithoutConcat | storage.ts:82 | removal keeps the other entries in stored order |
| History.WithoutAbsent | storage.ts:82 | removing an id no entry has keeps the list as is |
| History.DeleteSession | storage.ts:80-91 | stores exactly the entries with another id and returns that list filtered as `getHistory` would |
| History.DeleteKeepsOrder | storage.ts:80-91 | the entries a delete keeps stay in stored order: deleting from a concatenation deletes from each part in turn |
| History.ClearAllHistory | storage.ts:93-95 | afterwards the raw and filtered history are empty |
| History.SaveThenGet | storage.ts:17-78 | a saved session is what `getSession` returns for its id and is listed by `getHistory` |
| History.DeleteThenGet | storage.ts:75-91 | after a delete no entry has the id, and deleting again stores the same list |
| History.DeleteMissingKeepsHistory | storage.ts:80-91 | deleting an id that is not stored keeps the history unchanged |
| Suggestions.DecimalString | services/suggestionsService.ts:20 | the id is a non-empty run of decimal digits without a leading zero |
| Suggestions.DecimalRoundTrip | services/suggestionsService.ts:20 | the id string denotes the clock reading it came from |
| Suggestions.DecimalInjective | services/suggestionsService.ts:20 | different clock readings give different ids |
| Suggestions.GetSuggestions | services/suggestionsService.ts:5-13 | a missing or unparsable value reads as the empty list |
| Suggestions.AddSuggestion | services/suggestionsService.ts:15-28 | the record keeps the caller's name, sector and reason and gains a timestamp and an id from the two clock readings, the id written as canonical decimal digits (non-empty, no leading zero); it is stored in front of the unchanged previous list, one longer |
| Suggestions.ClearSuggestions | services/suggestionsService.ts:30-32 | afterwards the list reads as empty |
| Suggestions.AddThenGet | services/suggestionsService.ts:5-28 | reading after an add gives the new record followed by the previous list |

## Findings

| source | as written | input that shows it | evidently intended | confidence | as-written member | corrected member |
|---|---|---|---|---|---|---|
| components/LiveVoiceInterface.tsx:65-83 | `onaudioprocess` is created inside the mount-time effect (empty dependency list, line 164), so its `isMuted` is the first render's `false` for the life of the component | mount, open, press mute, then deliver a frame: the frame is still sent and the volume still updates | a muted session sends no microphone audio | not executed; high (a stale React closure) | Bridge.OnAudioProcessAsWritten, Bridge.MuteIgnoredAsWritten | Bridge.OnAudioProcess |

The rest of the bridge model treats mute as the current flag, through
`Capture.FrameStep` and `Bridge.OnAudioProcess`.

## Left out

- React rendering, hooks plumbing and component state other than the
  fields above. This is UI.
- The Gemini SDK (`ai.live.connect`), the session promise chain and
  `sendRealtimeInput` are left out. They are external calls: a send is
  modelled as the chunk the callback hands over.
- Connection configuration (model name, voice, system instruction) is
  left out. It is opaque data.
- Real Web Audio and media devices are not modelled. Device time and
  buffer durations are inputs, and sources are handles.
- `Math.sqrt` and IEEE-754 behaviour are not modelled. The RMS level is a
  given non-negative real, samples are reals, and NaN and infinities do
  not occur.
- Pcm.DecodeAudioData: mono at 24 kHz only, which is the one way the
  component calls it. The `numChannels`/`sampleRate` parameters are fixed.
- Pcm.PackLE, Pcm.UnpackLE, Pcm.DecodeAudioData: assume a little-endian
  platform, as every browser `Int16Array` is in practice (lines 294 and
  324 use the platform byte order).
- Any interleaving across the `await` at line 101, and `startSession`
  still running after an unmount, are left out. These are concurrency
  concerns. All handlers are modelled as atomic steps.
- Bridge.StartSession: a transport connection failure is reported through
  `onerror` (`Bridge.OnError`), not through this function.
- `JSON.parse`/`stringify` and `localStorage` internals are not modelled.
  A value is missing, unparsable, or a parsed array. A parsed value that
  is not an array, and message attachments, are not modelled.
- History.NewSession: the entity-catalogue title fallback (`constants.ts`)
  is left out. It is unreachable, because a user message is required first.
- History.Title, History.Prefix: a character outside the Basic
  Multilingual Plane counts as one character here but as two UTF-16 code
  units in `slice`, so for such text the cut point, and whether `...` is
  appended, can differ from `slice(0, 40)` and `slice(0, 60)`; a cut
  through a surrogate pair is not modelled, since a Dafny `char` is a
  Unicode scalar value.

=== FILE: base64.dfy ===
/** The byte-level base64 codec of the voice bridge (`encode` and `decode`
    in components/LiveVoiceInterface.tsx).  `encode` builds a binary string
    of the bytes and hands it to `btoa`; `decode` hands a string to `atob`
    and reads the character codes back.  Both browser primitives implement
    the base64 alphabet and padding of section 4 of RFC 4648; `atob` decodes
    with the "forgiving-base64 decode" algorithm of the WHATWG Infra
    standard, which drops ASCII whitespace, tolerates missing padding and
    ignores the leftover bits of the final group. */
module Base64 {
  import opened Wrappers

  type byte = x: int | 0 <= x < 256
  type sextet = x: int | 0 <= x < 64

  const Pad: char := '='

  /** Characters of the base64 alphabet (RFC 4648, table 1). */
  predicate IsAlphabet(c: char) {
    ('A' <= c <= 'Z') || ('a' <= c <= 'z') || ('0' <= c <= '9') || c == '+' || c == '/'
  }

  /** The alphabet character for a 6-bit value. */
  function CharOf(v: sextet): (c: char)
    ensures IsAlphabet(c)
  {
    if v < 26 then ('A' as int + v) as char
    else if v < 52 then ('a' as int + (v - 26)) as char
    else if v < 62 then ('0' as int + (v - 52)) as char
    else if v == 62 then '+'
    else '/'
  }

  /** The 6-bit value of an alphabet character. */
  function ValueOf(c: char): (v: sextet)
    requires IsAlphabet(c)
    ensures CharOf(v) == c
  {
    if 'A' <= c <= 'Z' then c as int - 'A' as int
    else if 'a' <= c <= 'z' then c as int - 'a' as int + 26
    else if '0' <= c <= '9' then c as int - '0' as int + 52
    else if c == '+' then 62
    else 63
  }

  lemma ValueOfCharOf(v: sextet)
    ensures ValueOf(CharOf(v)) == v
  {
  }

  /** Three bytes as four 6-bit values. */
  function Split(b0: byte, b1: byte, b2: byte): (v: seq<sextet>)
    ensures |v| == 4
  {
    [b0 / 4, (b0 % 4) * 16 + b1 / 16, (b1 % 16) * 4 + b2 / 64, b2 % 64]
  }

  /** Four 6-bit values as three bytes. */
  function Join(s0: sextet, s1: sextet, s2: sextet, s3: sextet): (b: seq<byte>)
    ensures |b| == 3
  {
    [s0 as int * 4 + s1 as int / 16, (s1 as int % 16) * 16 + s2 as int / 4, (s2 as int % 4) * 64 + s3 as int]
  }

  /** Splits bytes into 6-bit groups: three bytes give four sextets, and a
      final group of one or two bytes gives the first two or three sextets
      of that group padded with zero bytes. */
  function EncodeSextets(b: seq<byte>): (v: seq<sextet>)
    ensures |v| == |b| / 3 * 4 + (if |b| % 3 == 0 then 0 else |b| % 3 + 1)
    decreases |b|
  {
    if |b| == 0 then []
    else if |b| == 1 then Split(b[0], 0, 0)[..2]
    else if |b| == 2 then Split(b[0], b[1], 0)[..3]
    else Split(b[0], b[1], b[2]) + EncodeSextets(b[3..])
  }

  /** Joins 6-bit groups back into bytes: four sextets give three bytes,
      and a final group of two or three gives one or two bytes, the
      leftover 4 or 2 bits being discarded. */
  function DecodeSextets(v: seq<sextet>): (b: seq<byte>)
    requires |v| % 4 != 1
    ensures |b| == |v| * 3 / 4
    decreases |v|
  {
    if |v| == 0 then []
    else if |v| == 2 then Join(v[0], v[1], 0, 0)[..1]
    else if |v| == 3 then Join(v[0], v[1], v[2], 0)[..2]
    else Join(v[0], v[1], v[2], v[3]) + DecodeSextets(v[4..])
  }

  function Chars(v: seq<sextet>): (s: string)
    ensures |s| == |v|
    ensures forall i | 0 <= i < |s| :: IsAlphabet(s[i]) && ValueOf(s[i]) == v[i]
  {
    seq(|v|, i requires 0 <= i < |v| => CharOf(v[i]))
  }

  function Values(s: string): (v: seq<sextet>)
    requires forall i | 0 <= i < |s| :: IsAlphabet(s[i])
    ensures |v| == |s|
    ensures forall i | 0 <= i < |v| :: CharOf(v[i]) == s[i]
  {
    seq(|s|, i requires 0 <= i < |s| => ValueOf(s[i]))
  }

  /** The `=` characters that complete the last 4-character group. */
  function Padding(n: nat): (p: string)
    ensures |p| == (3 - n % 3) % 3
    ensures forall i | 0 <= i < |p| :: p[i] == Pad
  {
    if n % 3 == 1 then "==" else if n % 3 == 2 then "=" else ""
  }

  /** `btoa` of the binary string of the bytes: the characters of their
      6-bit groups followed by the padding. */
  function Encode(b: seq<byte>): (s: string)
    ensures |s| == 4 * ((|b| + 2) / 3)
    ensures forall i | 0 <= i < |s| :: IsAlphabet(s[i]) || s[i] == Pad
  {
    Chars(EncodeSextets(b)) + Padding(|b|)
  }

  /** ASCII whitespace as the WHATWG Infra standard defines it. */
  predicate IsAsciiWhitespace(c: char) {
    c == '\t' || c == '\n' || c == '\U{000C}' || c == '\r' || c == ' '
  }

  function StripWhitespace(s: string): (r: string)
    ensures forall i | 0 <= i < |r| :: !IsAsciiWhitespace(r[i])
    ensures |r| <= |s|
  {
    if |s| == 0 then ""
    else if IsAsciiWhitespace(s[0]) then StripWhitespace(s[1..])
    else [s[0]] + StripWhitespace(s[1..])
  }

  /** Step 2 of forgiving-base64 decode: when the length is a multiple of
      four, one or two trailing `=` are removed. */
  function StripPadding(s: string): (r: string)
    ensures |s| % 4 != 0 ==> r == s
    ensures |s| % 4 == 0 ==> |s| - 2 <= |r| <= |s| && r == s[..|r|]
  {
    if |s| % 4 != 0 then s
    else if |s| >= 2 && s[|s| - 1] == Pad && s[|s| - 2] == Pad then s[..|s| - 2]
    else if |s| >= 1 && s[|s| - 1] == Pad then s[..|s| - 1]
    else s
  }

  /** `atob`: whitespace and padding are stripped, the rest must be alphabet
      characters of a length not 1 mod 4, and the 6-bit groups are joined
      into bytes; None stands for the InvalidCharacterError it throws. */
  function Decode(s: string): (r: Option<seq<byte>>)
    ensures r.Some? <==>
      var d := StripPadding(StripWhitespace(s));
      |d| % 4 != 1 && forall i | 0 <= i < |d| :: IsAlphabet(d[i])
    ensures r.Some? ==> |r.value| == |StripPadding(StripWhitespace(s))| * 3 / 4
  {
    var d := StripPadding(StripWhitespace(s));
    if |d| % 4 == 1 then None
    else if exists i | 0 <= i < |d| :: !IsAlphabet(d[i]) then None
    else Some(DecodeSextets(Values(d)))
  }

  lemma GroupRoundTrip(b0: byte, b1: byte, b2: byte)
    ensures var v := Split(b0, b1, b2); Join(v[0], v[1], v[2], v[3]) == [b0, b1, b2]
  {
    assert ((b0 % 4) * 16 + b1 / 16) / 16 == b0 % 4;
    assert ((b0 % 4) * 16 + b1 / 16) % 16 == b1 / 16;
    assert ((b1 % 16) * 4 + b2 / 64) / 4 == b1 % 16;
    assert ((b1 % 16) * 4 + b2 / 64) % 4 == b2 / 64;
  }

  lemma DecodeConcat(g: seq<sextet>, rest: seq<sextet>)
    requires |g| == 4 && |rest| % 4 != 1
    ensures DecodeSextets(g + rest) == Join(g[0], g[1], g[2], g[3]) + DecodeSextets(rest)
  {
    assert (g + rest)[4..] == rest;
  }

  /** Decoding the sextets of any byte sequence gives the bytes back. */
  lemma {:induction false} SextetsRoundTrip(b: seq<byte>)
    ensures |EncodeSextets(b)| % 4 != 1
    ensures DecodeSextets(EncodeSextets(b)) == b
    decreases |b|
  {
    if |b| == 0 {
    } else if |b| == 1 {
      GroupRoundTrip(b[0], 0, 0);
    } else if |b| == 2 {
      GroupRoundTrip(b[0], b[1], 0);
    } else {
      var g := Split(b[0], b[1], b[2]);
      GroupRoundTrip(b[0], b[1], b[2]);
      SextetsRoundTrip(b[3..]);
      DecodeConcat(g, EncodeSextets(b[3..]));
      assert b == [b[0], b[1], b[2]] + b[3..];
    }
  }

  lemma {:induction false} StripWhitespaceIdentity(s: string)
    requires forall i | 0 <= i < |s| :: !IsAsciiWhitespace(s[i])
    ensures StripWhitespace(s) == s
    decreases |s|
  {
    if |s| > 0 {
      StripWhitespaceIdentity(s[1..]);
    }
  }

  lemma StripPaddingOf(c: string, p: string)
    requires (|c| + |p|) % 4 == 0 && |p| <= 2
    requires forall i | 0 <= i < |p| :: p[i] == Pad
    requires forall i | 0 <= i < |c| :: c[i] != Pad
    ensures StripPadding(c + p) == c
  {
    var s := c + p;
    if |p| == 2 {
      assert s[|s| - 1] == p[1] && s[|s| - 2] == p[0];
      assert s[..|s| - 2] == c;
    } else if |p| == 1 {
      assert s[|s| - 1] == p[0] && s[|s| - 2] == c[|c| - 1];
      assert s[..|s| - 1] == c;
    } else if |s| > 0 {
      assert s == c && s[|s| - 1] == c[|c| - 1];
    }
  }

  /** Text produced by the encoder contains no whitespace and its padding
      is exactly what forgiving decode strips. */
  lemma StripEncoded(b: seq<byte>)
    ensures StripPadding(StripWhitespace(Encode(b))) == Chars(EncodeSextets(b))
  {
    var c := Chars(EncodeSextets(b));
    var s := Encode(b);
    assert s == c + Padding(|b|);
    StripWhitespaceIdentity(s);
    StripPaddingOf(c, Padding(|b|));
  }

  /** decode(encode(bytes)) == bytes for every byte sequence. */
  lemma RoundTrip(b: seq<byte>)
    ensures Decode(Encode(b)) == Some(b)
  {
    StripEncoded(b);
    SextetsRoundTrip(b);
    var d := Chars(EncodeSextets(b));
    assert Values(d) == EncodeSextets(b);
  }

  /** The decoder is forgiving: text without its padding decodes too. */
  lemma UnpaddedDecodes(b: seq<byte>)
    ensures Decode(Chars(EncodeSextets(b))) == Some(b)
  {
    var d := Chars(EncodeSextets(b));
    StripWhitespaceIdentity(d);
    SextetsRoundTrip(b);
    if |d| > 0 {
      assert d[|d| - 1] != Pad;
    }
    assert Values(d) == EncodeSextets(b);
  }

  /** A string whose length, once whitespace is removed, leaves remainder 1
      modulo 4 is always rejected. */
  lemma RejectsRemainderOne(s: string)
    requires |StripWhitespace(s)| % 4 == 1
    ensures Decode(s) == None
  {
  }
}

=== FILE: bridge.dfy ===
/** The voice session component (`LiveVoiceInterface` in
    components/LiveVoiceInterface.tsx): connection status, the `mounted`
    guard on transport callbacks, inbound message handling, the capture
    callback, the mute toggle and teardown.  Device and transport handles
    are reduced to what the component observes about them: whether they
    have been acquired and, for audio contexts, whether they are closed. */
module Bridge {
  import opened Wrappers
  import Base64
  import Pcm
  import Playback
  import Capture

  datatype Status = Connecting | Connected | Error

  datatype ContextState = Running | Closed

  datatype Bridge = Bridge(
    mounted: bool,
    status: Status,
    isMuted: bool,
    volume: real,
    inputContext: Option<ContextState>,
    outputContext: Option<ContextState>,
    streamAcquired: bool,
    sessionRequested: bool,
    graphWired: bool,
    playback: Playback.Playback)

  /** First render and mount of the component (lines 14-29). */
  function Mount(): (b: Bridge)
    ensures b.mounted && b.status == Connecting && !b.isMuted && b.volume == 0.0
    ensures b.inputContext == None && b.outputContext == None
    ensures !b.streamAcquired && !b.sessionRequested && !b.graphWired
    ensures b.playback.active == map[] && b.playback.nextStart == 0.0
  {
    Bridge(true, Connecting, false, 0.0, None, None, false, false, false, Playback.Initial)
  }

  /** `startSession` (lines 31-155): with no API key it fails before any
      device is touched; otherwise both audio contexts are created, and a
      refused microphone fails before the transport is contacted.  Its
      catch block sets the error status without consulting `mounted`. */
  function StartSession(b: Bridge, apiKeyPresent: bool, microphoneGranted: bool): (r: Bridge)
    ensures !apiKeyPresent ==> r == b.(status := Error)
    ensures apiKeyPresent ==> r.inputContext == Some(Running) && r.outputContext == Some(Running)
    ensures apiKeyPresent && !microphoneGranted ==>
      r.status == Error && r.streamAcquired == b.streamAcquired && r.sessionRequested == b.sessionRequested
    ensures apiKeyPresent && microphoneGranted ==>
      r.status == b.status && r.streamAcquired && r.sessionRequested
    ensures r.playback == b.playback && r.mounted == b.mounted && r.isMuted == b.isMuted
    ensures r == b.(inputContext := r.inputContext, outputContext := r.outputContext, status := r.status,
                    streamAcquired := r.streamAcquired, sessionRequested := r.sessionRequested)
  {
    if !apiKeyPresent then b.(status := Error)
    else
      var withContexts := b.(inputContext := Some(Running), outputContext := Some(Running));
      if !microphoneGranted then withContexts.(status := Error)
      else withContexts.(streamAcquired := true, sessionRequested := true)
  }

  /** The transport reports the channel open (`onopen`, lines 54-87): a
      mounted component becomes connected and wires the capture graph. */
  function OnOpen(b: Bridge): (r: Bridge)
    ensures !b.mounted ==> r == b
    ensures b.mounted ==> r == b.(status := Connected, graphWired := true)
  {
    if !b.mounted then b else b.(status := Connected, graphWired := true)
  }

  /** The transport reports an error (`onerror`, lines 136-139): a mounted
      component moves to the error status. */
  function OnError(b: Bridge): (r: Bridge)
    ensures !b.mounted ==> r == b
    ensures b.mounted ==> r == b.(status := Error)
  {
    if !b.mounted then b else b.(status := Error)
  }

  /** The parts of a `LiveServerMessage` the handler reads. */
  datatype Part = Part(inlineData: Option<string>)
  datatype ServerContent = ServerContent(modelTurn: Option<seq<Part>>, interrupted: bool)
  datatype ServerMessage = ServerMessage(serverContent: Option<ServerContent>)

  /** The inline audio data of the first part of the model turn, when
      every step of the path is present and the data is a non-empty
      (truthy) string. */
  function AudioOf(m: ServerMessage): (a: Option<string>)
    ensures a.Some? ==> |a.value| > 0
    ensures a.Some? <==>
      m.serverContent.Some? && m.serverContent.value.modelTurn.Some?
      && |m.serverContent.value.modelTurn.value| > 0
      && m.serverContent.value.modelTurn.value[0].inlineData.Some?
      && |m.serverContent.value.modelTurn.value[0].inlineData.value| > 0
  {
    match m.serverContent
    case None => None
    case Some(content) =>
      match content.modelTurn
      case None => None
      case Some(parts) =>
        if |parts| == 0 then None
        else match parts[0].inlineData
          case None => None
          case Some(data) => if |data| == 0 then None else Some(data)
  }

  predicate Interrupted(m: ServerMessage) {
    m.serverContent.Some? && m.serverContent.value.interrupted
  }

  /** The buffer an audio payload decodes to; None when `atob` or
      `decodeAudioData` throws, which the handler catches and logs. */
  function DecodeChunk(data: string): (r: Option<Pcm.AudioBuffer>)
    ensures r.Some? ==> r.value.Duration() > 0.0
    ensures r.Some? <==>
      var bytes := Base64.Decode(data);
      bytes.Some? && |bytes.value| % 2 == 0 && |bytes.value| > 0
    ensures r.Some? ==> Pcm.DecodeAudioData(Base64.Decode(data).value) == Success(r.value)
  {
    match Base64.Decode(data)
    case None => None
    case Some(bytes) => Pcm.DecodeAudioData(bytes).ToOption()
  }

  /** The audio branch of `onmessage` (lines 92-122): the clock advances
      before decoding, so a chunk that fails to decode still moves it. */
  function ReceiveAudio(p: Playback.Playback, m: ServerMessage, now: real): (r: (Playback.Playback, Option<Playback.SourceId>))
    ensures r.1.Some? <==> AudioOf(m).Some? && DecodeChunk(AudioOf(m).value).Some?
    ensures AudioOf(m).None? ==> r.0 == p
    ensures AudioOf(m).Some? ==> r.0.nextStart >= now
    ensures r.1.Some? ==>
      && r.1.value == p.nextId
      && r.0 == Playback.Schedule(p, now, DecodeChunk(AudioOf(m).value).value.Duration())
    ensures r.1.None? ==> r.0.active == p.active
    ensures AudioOf(m).Some? && r.1.None? ==> r.0 == Playback.Advance(p, now)
  {
    match AudioOf(m)
    case None => (p, None)
    case Some(data) =>
      var advanced := Playback.Advance(p, now);
      match DecodeChunk(data)
      case None => (advanced, None)
      case Some(buffer) => (Playback.Start(advanced, buffer.Duration()), Some(p.nextId))
  }

  /** What one inbound message did to playback. */
  datatype Handled = Handled(next: Bridge, started: Option<Playback.SourceId>, stopped: set<Playback.SourceId>)

  /** `onmessage` (lines 88-132): the audio branch runs before the
      interruption branch, so audio arriving together with an interrupt is
      scheduled and then stopped at once. */
  function OnMessage(b: Bridge, m: ServerMessage, now: real): (h: Handled)
    ensures !b.mounted ==> h == Handled(b, None, {})
    ensures b.mounted ==> h.started == ReceiveAudio(b.playback, m, now).1
    ensures b.mounted && !Interrupted(m) ==> (h.next.playback, h.started) == ReceiveAudio(b.playback, m, now)
    ensures b.mounted && Interrupted(m) ==>
      && h.next.playback.active == map[] && h.next.playback.nextStart == 0.0
      && h.next.playback.nextId == ReceiveAudio(b.playback, m, now).0.nextId
      && h.stopped == b.playback.active.Keys + (if h.started.Some? then {h.started.value} else {})
    ensures !Interrupted(m) ==> h.stopped == {}
    ensures h.next == b.(playback := h.next.playback)
  {
    if !b.mounted then Handled(b, None, {})
    else
      var (p, started) := ReceiveAudio(b.playback, m, now);
      if Interrupted(m) then
        var (q, stopped) := Playback.Interrupt(p);
        Handled(b.(playback := q), started, stopped)
      else Handled(b.(playback := p), started, {})
  }

  /** The `ended` listener (lines 112-114); it is not guarded by `mounted`. */
  function OnSourceEnded(b: Bridge, id: Playback.SourceId): (r: Bridge)
    ensures id !in r.playback.active
    ensures forall other | other in b.playback.active && other != id ::
      other in r.playback.active && r.playback.active[other] == b.playback.active[other]
    ensures r == b.(playback := r.playback)
  {
    b.(playback := Playback.Ended(b.playback, id))
  }

  /** Every transition keeps the scheduler invariant: active sources never
      overlap and all end before the clock. */
  lemma {:induction false} OnMessagePreservesValid(b: Bridge, m: ServerMessage, now: real)
    requires Playback.Valid(b.playback)
    ensures Playback.Valid(OnMessage(b, m, now).next.playback)
  {
    if b.mounted {
      var (p, started) := ReceiveAudio(b.playback, m, now);
      match AudioOf(m)
      case None =>
      case Some(data) =>
        Playback.AdvancePreservesValid(b.playback, now);
        match DecodeChunk(data)
        case None =>
        case Some(buffer) =>
          Playback.StartPreservesValid(Playback.Advance(b.playback, now), buffer.Duration());
      if Interrupted(m) {
        Playback.InterruptPreservesValid(p);
      }
    }
  }

  lemma OnSourceEndedPreservesValid(b: Bridge, id: Playback.SourceId)
    requires Playback.Valid(b.playback)
    ensures Playback.Valid(OnSourceEnded(b, id).playback)
  {
    Playback.EndedPreservesValid(b.playback, id);
  }

  /** A message adds at most its own new source to the active set; without
      an interrupt no existing source changes membership or slot. */
  lemma MessageMembership(b: Bridge, m: ServerMessage, now: real)
    requires Playback.Valid(b.playback)
    requires b.mounted && !Interrupted(m)
    ensures var h := OnMessage(b, m, now);
      && (h.started.Some? ==> h.started.value !in b.playback.active && h.started.value in h.next.playback.active)
      && h.next.playback.active.Keys ==
           b.playback.active.Keys + (if h.started.Some? then {h.started.value} else {})
      && forall id | id in b.playback.active :: h.next.playback.active[id] == b.playback.active[id]
  {
  }

  /** Audio in the same message as an interrupt is scheduled, then stopped
      together with everything else. */
  lemma AudioWithInterruptIsStopped(b: Bridge, m: ServerMessage, now: real)
    requires b.mounted && Interrupted(m)
    requires AudioOf(m).Some? && DecodeChunk(AudioOf(m).value).Some?
    ensures var h := OnMessage(b, m, now);
      && h.started == Some(b.playback.nextId)
      && h.stopped == b.playback.active.Keys + {b.playback.nextId}
      && h.next.playback.active == map[]
  {
  }

  /** The value of `isMuted` seen by the capture callback as written: the
      callback is created inside the mount-time effect (whose dependency
      list is empty) and so closes over the first render's `false`. */
  const CapturedMute: bool := false

  /** `onaudioprocess` as written (lines 65-83): the mute test reads the
      captured first-render value, not the current mute state. */
  function OnAudioProcessAsWritten(b: Bridge, frame: seq<real>, rms: real): (r: (Bridge, Option<Pcm.Blob>))
    requires rms >= 0.0
    ensures r.1 == Some(Pcm.CreateBlob(frame))
    ensures r.0 == b.(volume := Capture.Volume(rms))
  {
    var o := Capture.FrameStep(CapturedMute, frame, rms);
    (b.(volume := o.volume.GetOr(b.volume)), o.sent)
  }

  /** As written, a muted session keeps sending microphone audio. */
  lemma MuteIgnoredAsWritten(frame: seq<real>, rms: real)
    requires rms >= 0.0
    ensures var b := ToggleMute(OnOpen(Mount()));
      b.isMuted && OnAudioProcessAsWritten(b, frame, rms).1 == Some(Pcm.CreateBlob(frame))
  {
  }

  /** `onaudioprocess` reading the current mute state, as the mute button
      intends: muted frames change nothing and send nothing. */
  function OnAudioProcess(b: Bridge, frame: seq<real>, rms: real): (r: (Bridge, Option<Pcm.Blob>))
    requires rms >= 0.0
    ensures b.isMuted ==> r == (b, None)
    ensures !b.isMuted ==>
      && r.1 == Some(Pcm.CreateBlob(frame))
      && r.0.volume == Capture.Volume(rms)
      && r.0 == b.(volume := r.0.volume)
  {
    var o := Capture.FrameStep(b.isMuted, frame, rms);
    (b.(volume := o.volume.GetOr(b.volume)), o.sent)
  }

  /** The mute button and the effect on `isMuted` (lines 166-172, 261). */
  function ToggleMute(b: Bridge): (r: Bridge)
    ensures r.isMuted == !b.isMuted
    ensures r.isMuted && b.graphWired ==> r.volume == 0.0
    ensures !(r.isMuted && b.graphWired) ==> r.volume == b.volume
    ensures r == b.(isMuted := r.isMuted, volume := r.volume)
  {
    var muted := !b.isMuted;
    if b.graphWired && muted then b.(isMuted := muted, volume := 0.0)
    else b.(isMuted := muted)
  }

  /** The release calls one `cleanup` issues. */
  datatype Teardown = Teardown(
    sessionClose: bool,
    tracksStopped: bool,
    graphDisconnected: bool,
    inputClose: bool,
    outputClose: bool,
    stopAttempts: set<Playback.SourceId>)

  predicate NotRunning(c: Option<ContextState>) {
    c != Some(Running)
  }

  function CloseIfOpen(c: Option<ContextState>): (r: Option<ContextState>)
    ensures NotRunning(r)
    ensures c.Some? <==> r.Some?
  {
    if c == Some(Running) then Some(Closed) else c
  }

  /** `cleanup` (lines 174-201): each step is guarded by its own null
      check; a context is closed only while it is not already closed; the
      errors of `session.close` and of stopping sources are swallowed, so
      every step is attempted and cleanup always completes. */
  function Cleanup(b: Bridge): (r: (Bridge, Teardown))
    ensures NotRunning(r.0.inputContext) && NotRunning(r.0.outputContext)
    ensures r.1.inputClose <==> b.inputContext == Some(Running)
    ensures r.1.outputClose <==> b.outputContext == Some(Running)
    ensures r.1.sessionClose == b.sessionRequested && r.1.tracksStopped == b.streamAcquired
    ensures r.1.graphDisconnected == b.graphWired
    ensures r.1.stopAttempts == b.playback.active.Keys
    ensures r.0 == b.(inputContext := r.0.inputContext, outputContext := r.0.outputContext)
  {
    var next := b.(inputContext := CloseIfOpen(b.inputContext), outputContext := CloseIfOpen(b.outputContext));
    (next, Teardown(b.sessionRequested, b.streamAcquired, b.graphWired,
                    b.inputContext == Some(Running), b.outputContext == Some(Running),
                    b.playback.active.Keys))
  }

  /** A second cleanup leaves the state as it is and issues no further
      context `close` calls. */
  lemma CleanupIdempotent(b: Bridge)
    ensures var first := Cleanup(b).0;
      && Cleanup(first).0 == first
      && !Cleanup(first).1.inputClose && !Cleanup(first).1.outputClose
  {
  }

  /** Effect teardown on unmount (lines 160-163). */
  function Unmount(b: Bridge): (r: (Bridge, Teardown))
    ensures !r.0.mounted
    ensures NotRunning(r.0.inputContext) && NotRunning(r.0.outputContext)
    ensures r.1 == Cleanup(b).1 && r.0 == Cleanup(b).0.(mounted := false)
  {
    Cleanup(b.(mounted := false))
  }

  /** After unmount every transport callback is a no-op. */
  lemma UnmountedIgnoresCallbacks(b: Bridge, m: ServerMessage, now: real)
    ensures var u := Unmount(b).0;
      && OnOpen(u) == u && OnError(u) == u && OnMessage(u, m, now) == Handled(u, None, {})
  {
  }

  /** The close button (lines 203-206) runs `cleanup`, then the parent
      unmounts the component, which runs it again: each context is closed
      at most once over the two calls, and both end up closed. */
  lemma CloseButtonThenUnmount(b: Bridge)
    ensures var (first, t1) := Cleanup(b);
      var (second, t2) := Unmount(first);
      && !(t1.inputClose && t2.inputClose) && !(t1.outputClose && t2.outputClose)
      && !t2.inputClose && !t2.outputClose
      && NotRunning(second.inputContext) && NotRunning(second.outputContext)
  {
  }

  /** Status moves only from connecting to connected or error. */
  lemma StatusTransitions(b: Bridge, apiKeyPresent: bool, microphoneGranted: bool, m: ServerMessage, now: real)
    ensures StartSession(b, apiKeyPresent, microphoneGranted).status in {b.status, Error}
    ensures OnOpen(b).status in {b.status, Connected}
    ensures OnError(b).status in {b.status, Error}
    ensures OnMessage(b, m, now).next.status == b.status
    ensures Cleanup(b).0.status == b.status
  {
  }

  /** An event that can reach the component after it has mounted: the
      completion of the asynchronous `startSession`, a transport callback,
      a source ending, the mute button, or unmounting. */
  datatype Event =
    | Started(apiKeyPresent: bool, microphoneGranted: bool)
    | Opened
    | Errored
    | Message(m: ServerMessage, now: real)
    | SourceEnded(id: Playback.SourceId)
    | MutePressed
    | Unmounted

  function Apply(b: Bridge, e: Event): Bridge {
    match e
    case Started(key, mic) => StartSession(b, key, mic)
    case Opened => OnOpen(b)
    case Errored => OnError(b)
    case Message(m, now) => OnMessage(b, m, now).next
    case SourceEnded(id) => OnSourceEnded(b, id)
    case MutePressed => ToggleMute(b)
    case Unmounted => Unmount(b).0
  }

  /** The component after a sequence of events, in order. */
  function Run(b: Bridge, es: seq<Event>): Bridge
    decreases |es|
  {
    if |es| == 0 then b else Run(Apply(b, es[0]), es[1..])
  }

  /** A `startSession` that ends in its catch block: no API key, or the
      microphone refused. */
  predicate StartFailed(e: Event) {
    e.Started? && !(e.apiKeyPresent && e.microphoneGranted)
  }

  /** One event: how it can move the status and the `mounted` flag. */
  lemma ApplyStatus(b: Bridge, e: Event)
    ensures Apply(b, e).status == Connected ==> b.status == Connected || e == Opened
    ensures Apply(b, e).status == Error ==> b.status == Error || e == Errored || StartFailed(e)
    ensures !b.mounted ==> !Apply(b, e).mounted
    ensures !b.mounted && Apply(b, e).status != b.status ==> Apply(b, e).status == Error && StartFailed(e)
  {
  }

  /** Over any run, the status becomes connected only through an `onopen`,
      and becomes error only through an `onerror` or a failed
      `startSession`.  Once unmounted the component stays unmounted, and
      only a failed `startSession` still changes the status, because its
      catch block does not consult `mounted`. */
  lemma {:induction false} StatusLifecycle(b: Bridge, es: seq<Event>)
    ensures Run(b, es).status == Connected ==> b.status == Connected || Opened in es
    ensures Run(b, es).status == Error ==>
      b.status == Error || Errored in es || exists i | 0 <= i < |es| :: StartFailed(es[i])
    ensures !b.mounted ==> !Run(b, es).mounted
    ensures !b.mounted && Run(b, es).status != b.status ==>
      Run(b, es).status == Error && exists i | 0 <= i < |es| :: StartFailed(es[i])
    decreases |es|
  {
    if |es| > 0 {
      var a := Apply(b, es[0]);
      ApplyStatus(b, es[0]);
      StatusLifecycle(a, es[1..]);
      assert es == [es[0]] + es[1..];
      forall i | 0 <= i < |es| - 1 && StartFailed(es[1..][i])
        ensures StartFailed(es[i + 1])
      {
      }
    }
  }

  /** Pressing mute twice restores the flag and every field but the
      volume; with the capture graph wired one of the two presses mutes and
      zeroes the volume, and nothing restores it until the next frame. */
  lemma ToggleMuteTwice(b: Bridge)
    ensures var r := ToggleMute(ToggleMute(b));
      r.isMuted == b.isMuted && r == b.(volume := r.volume)
    ensures ToggleMute(ToggleMute(b)).volume == if b.graphWired then 0.0 else b.volume
  {
  }
}

=== FILE: capture.dfy ===
/** One capture callback of the voice bridge (`processor.onaudioprocess`
    in components/LiveVoiceInterface.tsx).  The square root in the RMS
    computation stays abstract: the frame's RMS level is an input. */
module Capture {
  import opened Wrappers
  import Base64
  import Pcm

  /** Frame size requested from `createScriptProcessor`. */
  const BufferSize: nat := 4096
  /** Gain applied to the RMS level before clamping. */
  const VolumeGain: real := 5.0

  /** What one frame does: an optional volume update and an optional chunk
      handed to the session. */
  datatype FrameOutcome = FrameOutcome(volume: Option<real>, sent: Option<Pcm.Blob>)

  /** The level shown to the user: the RMS level times the gain, clamped
      to at most 1. */
  function Volume(rms: real): (v: real)
    requires rms >= 0.0
    ensures 0.0 <= v <= 1.0
    ensures v <= rms * VolumeGain
    ensures v < 1.0 ==> v == rms * VolumeGain
  {
    if rms * VolumeGain < 1.0 then rms * VolumeGain else 1.0
  }

  /** A muted frame returns before both the volume computation and the
      send; an unmuted frame updates the volume and sends exactly one chunk
      carrying the frame's 16-bit PCM. */
  function FrameStep(muted: bool, frame: seq<real>, rms: real): (o: FrameOutcome)
    requires rms >= 0.0
    ensures o.volume.Some? <==> !muted
    ensures o.sent.Some? <==> !muted
    ensures o.volume.Some? ==> o.volume.value == Volume(rms)
    ensures o.sent.Some? ==>
      && o.sent.value.mimeType == Pcm.BlobMimeType
      && Base64.Decode(o.sent.value.data) == Some(Pcm.PackLE(Pcm.Quantize(frame)))
  {
    if muted then FrameOutcome(None, None)
    else FrameOutcome(Some(Volume(rms)), Some(Pcm.CreateBlob(frame)))
  }

  /** What an unmuted frame sends decodes back to the frame: for samples in
      [-1, 1) every decoded sample is within 1/32768 of the captured one. */
  lemma SentFrameDecodes(frame: seq<real>, rms: real)
    requires rms >= 0.0 && |frame| > 0
    requires forall i | 0 <= i < |frame| :: -1.0 <= frame[i] < 1.0
    ensures var o := FrameStep(false, frame, rms);
      && o.sent.Some?
      && var bytes := Base64.Decode(o.sent.value.data);
      && bytes.Some?
      && var r := Pcm.DecodeAudioData(bytes.value);
      && r.Success?
      && |r.value.channel| == |frame|
      && forall i | 0 <= i < |frame| :: -1.0 / Pcm.Scale < r.value.channel[i] - frame[i] < 1.0 / Pcm.Scale
  {
    Pcm.FrameRoundTrip(frame);
  }

  /** Three muted frames send nothing; the frame after unmuting is sent. */
  lemma MuteScenario(f1: seq<real>, f2: seq<real>, f3: seq<real>, f4: seq<real>, rms: real)
    requires rms >= 0.0
    ensures FrameStep(true, f1, rms).sent == None
    ensures FrameStep(true, f2, rms).sent == None
    ensures FrameStep(true, f3, rms).sent == None
    ensures FrameStep(false, f4, rms).sent == Some(Pcm.CreateBlob(f4))
  {
  }
}

=== FILE: history.dfy ===
/** The chat-history store (storage.ts): saved conversations kept as one
    JSON array under a single storage key.  The clock (`Date.now()`) is an
    input. */
module History {
  import opened Wrappers
  import opened LocalStore

  datatype Role = User | Model

  /** A chat message; attachments are carried by the source unchanged and
      are not modelled. */
  datatype Message = Message(id: string, role: Role, text: string, timestamp: int)

  datatype SavedSession = SavedSession(
    id: string,
    entityId: string,
    title: string,
    preview: string,
    lastModified: int,
    messages: seq<Message>)

  const TitleLength: nat := 40
  const PreviewLength: nat := 60
  const Ellipsis: string := "..."

  predicate HasUserMessage(ms: seq<Message>) {
    exists i | 0 <= i < |ms| :: ms[i].role == User
  }

  /** Index of the first message written by the user. */
  function FirstUser(ms: seq<Message>): (i: nat)
    requires HasUserMessage(ms)
    ensures i < |ms| && ms[i].role == User
    ensures forall j | 0 <= j < i :: ms[j].role != User
  {
    if ms[0].role == User then 0
    else
      assert HasUserMessage(ms[1..]) by {
        var k :| 0 <= k < |ms| && ms[k].role == User;
        assert ms[1..][k - 1] == ms[k];
      }
      1 + FirstUser(ms[1..])
  }

  /** The first n characters of a string, or all of it when it is shorter. */
  function Prefix(s: string, n: nat): (r: string)
    ensures |r| == if |s| <= n then |s| else n
    ensures r == s[..|r|]
  {
    if |s| <= n then s else s[..n]
  }

  /** The first 40 characters of the text, followed by `...` exactly when
      the text is longer than that. */
  function Title(text: string): (t: string)
    ensures |text| <= TitleLength ==> t == text
    ensures |text| > TitleLength ==>
      |t| == TitleLength + |Ellipsis| && t[..TitleLength] == text[..TitleLength] && t[TitleLength..] == Ellipsis
  {
    Prefix(text, TitleLength) + (if |text| > TitleLength then Ellipsis else "")
  }

  /** `getHistoryRaw` (lines 7-15): a missing or unparsable value reads as
      the empty history. */
  function GetHistoryRaw(store: Stored<SavedSession>): (h: seq<SavedSession>)
    ensures !store.Holds? ==> h == []
    ensures store.Holds? ==> h == store.items
  {
    Read(store)
  }

  /** The position of the first entry with the given id, if any. */
  function FindIndex(h: seq<SavedSession>, id: string): (r: Option<nat>)
    ensures r.Some? ==> r.value < |h| && h[r.value].id == id
    ensures r.Some? ==> forall j | 0 <= j < r.value :: h[j].id != id
    ensures r.None? ==> forall j | 0 <= j < |h| :: h[j].id != id
  {
    if |h| == 0 then None
    else if h[0].id == id then Some(0)
    else match FindIndex(h[1..], id)
      case None => None
      case Some(k) => Some(k + 1)
  }

  /** The record `saveSession` builds (lines 35-52); its entity-name and
      `...` fallbacks are unreachable once a user message is known to
      exist. */
  function NewSession(sessionId: string, entityId: string, messages: seq<Message>, now: int): (s: SavedSession)
    requires HasUserMessage(messages)
    ensures s.id == sessionId && s.entityId == entityId && s.messages == messages && s.lastModified == now
    ensures s.title == Title(messages[FirstUser(messages)].text)
    ensures s.preview == Prefix(messages[|messages| - 1].text, PreviewLength)
  {
    SavedSession(sessionId, entityId, Title(messages[FirstUser(messages)].text),
                 Prefix(messages[|messages| - 1].text, PreviewLength), now, messages)
  }

  /** `saveSession` (lines 17-63): without a user message nothing is
      written and null is returned; otherwise the first entry with the
      same id is replaced in place, or the session is prepended. */
  function SaveSession(store: Stored<SavedSession>, sessionId: string, entityId: string,
                       messages: seq<Message>, now: int): (r: (Option<SavedSession>, Stored<SavedSession>))
    ensures !HasUserMessage(messages) ==> r == (None, store)
    ensures HasUserMessage(messages) ==>
      && r.0 == Some(NewSession(sessionId, entityId, messages, now))
      && r.1.Holds?
      && var before := GetHistoryRaw(store);
         var h := r.1.items;
         match FindIndex(before, sessionId)
         case Some(i) =>
           |h| == |before| && h[i] == r.0.value && forall j | 0 <= j < |h| && j != i :: h[j] == before[j]
         case None =>
           |h| == |before| + 1 && h[0] == r.0.value && h[1..] == before
  {
    if !HasUserMessage(messages) then (None, store)
    else
      var history := GetHistoryRaw(store);
      var session := NewSession(sessionId, entityId, messages, now);
      match FindIndex(history, sessionId)
      case Some(i) => (Some(session), Holds(history[i := session]))
      case None => (Some(session), Holds([session] + history))
  }

  /** A session the history list shows: non-empty and with a user message. */
  predicate Shown(s: SavedSession) {
    |s.messages| > 0 && HasUserMessage(s.messages)
  }

  /** The filter of lines 68-72 and 86-90. */
  function ShownOnly(h: seq<SavedSession>): (r: seq<SavedSession>)
    ensures |r| <= |h|
    ensures forall s :: s in r <==> s in h && Shown(s)
  {
    if |h| == 0 then []
    else if Shown(h[0]) then [h[0]] + ShownOnly(h[1..])
    else ShownOnly(h[1..])
  }

  /** The filter keeps stored order: filtering a concatenation filters each
      part. */
  lemma {:induction false} ShownOnlyConcat(a: seq<SavedSession>, b: seq<SavedSession>)
    ensures ShownOnly(a + b) == ShownOnly(a) + ShownOnly(b)
    decreases |a|
  {
    if |a| == 0 {
      assert a + b == b;
    } else {
      assert (a + b)[0] == a[0] && (a + b)[1..] == a[1..] + b;
      ShownOnlyConcat(a[1..], b);
    }
  }

  /** `getHistory` (lines 65-73): the stored sessions the list shows. */
  function GetHistory(store: Stored<SavedSession>): (r: seq<SavedSession>)
    ensures forall s :: s in r <==> s in GetHistoryRaw(store) && Shown(s)
  {
    ShownOnly(GetHistoryRaw(store))
  }

  /** `getSession` (lines 75-78): the first entry with the id. */
  function GetSession(store: Stored<SavedSession>, sessionId: string): (r: Option<SavedSession>)
    ensures r.Some? <==> exists s :: s in GetHistoryRaw(store) && s.id == sessionId
    ensures r.Some? ==> r.value.id == sessionId
    ensures r.Some? ==> var i := FindIndex(GetHistoryRaw(store), sessionId).value;
      r.value == GetHistoryRaw(store)[i]
  {
    var h := GetHistoryRaw(store);
    match FindIndex(h, sessionId)
    case Some(i) => Some(h[i])
    case None => None
  }

  /** The entries whose id differs from the given one, in stored order. */
  function Without(h: seq<SavedSession>, id: string): (r: seq<SavedSession>)
    ensures |r| <= |h|
    ensures forall s :: s in r <==> s in h && s.id != id
  {
    if |h| == 0 then []
    else if h[0].id != id then [h[0]] + Without(h[1..], id)
    else Without(h[1..], id)
  }

  /** Deletion keeps the remaining entries in stored order. */
  lemma {:induction false} WithoutConcat(a: seq<SavedSession>, b: seq<SavedSession>, id: string)
    ensures Without(a + b, id) == Without(a, id) + Without(b, id)
    decreases |a|
  {
    if |a| == 0 {
      assert a + b == b;
    } else {
      assert (a + b)[0] == a[0] && (a + b)[1..] == a[1..] + b;
      WithoutConcat(a[1..], b, id);
    }
  }

  lemma {:induction false} WithoutAbsent(h: seq<SavedSession>, id: string)
    requires forall s | s in h :: s.id != id
    ensures Without(h, id) == h
    decreases |h|
  {
    if |h| > 0 {
      WithoutAbsent(h[1..], id);
    }
  }

  /** `deleteSession` (lines 80-91): every entry with the id is removed and
      the rest stored in order; the caller gets that list as `getHistory`
      would filter it. */
  function DeleteSession(store: Stored<SavedSession>, sessionId: string): (r: (Stored<SavedSession>, seq<SavedSession>))
    ensures r.0.Holds?
    ensures forall s :: s in r.0.items <==> s in GetHistoryRaw(store) && s.id != sessionId
    ensures r.1 == GetHistory(r.0)
  {
    var remaining := Without(GetHistoryRaw(store), sessionId);
    (Holds(remaining), ShownOnly(remaining))
  }

  /** The list shown keeps stored order: the sessions of an earlier part
      come before those of a later one. */
  lemma GetHistoryKeepsOrder(a: seq<SavedSession>, b: seq<SavedSession>)
    ensures GetHistory(Holds(a + b)) == GetHistory(Holds(a)) + GetHistory(Holds(b))
  {
    ShownOnlyConcat(a, b);
  }

  /** Deleting keeps the remaining entries in stored order. */
  lemma DeleteKeepsOrder(a: seq<SavedSession>, b: seq<SavedSession>, sessionId: string)
    ensures DeleteSession(Holds(a + b), sessionId).0.items ==
      DeleteSession(Holds(a), sessionId).0.items + DeleteSession(Holds(b), sessionId).0.items
  {
    WithoutConcat(a, b, sessionId);
  }

  /** `clearAllHistory` (lines 93-95): the key is removed. */
  function ClearAllHistory(store: Stored<SavedSession>): (r: Stored<SavedSession>)
    ensures GetHistoryRaw(r) == [] && GetHistory(r) == []
  {
    Absent
  }

  /** A session just saved is what `getSession` returns for its id, and it
      is listed by `getHistory`. */
  lemma SaveThenGet(store: Stored<SavedSession>, sessionId: string, entityId: string,
                    messages: seq<Message>, now: int)
    requires HasUserMessage(messages)
    ensures var (saved, next) := SaveSession(store, sessionId, entityId, messages, now);
      && GetSession(next, sessionId) == saved
      && saved.value in GetHistory(next)
  {
    var (saved, next) := SaveSession(store, sessionId, entityId, messages, now);
    var before := GetHistoryRaw(store);
    assert saved.value.messages[FirstUser(messages)].role == User;
    match FindIndex(before, sessionId)
    case Some(i) =>
      assert FindIndex(next.items, sessionId) == Some(i);
    case None =>
      assert FindIndex(next.items, sessionId) == Some(0);
  }

  /** After deleting an id, no entry with it remains, and deleting it again
      stores the same list. */
  lemma DeleteThenGet(store: Stored<SavedSession>, sessionId: string)
    ensures var next := DeleteSession(store, sessionId).0;
      && GetSession(next, sessionId) == None
      && DeleteSession(next, sessionId).0 == next
  {
    var next := DeleteSession(store, sessionId).0;
    WithoutAbsent(next.items, sessionId);
  }

  /** Deleting an id that is not stored keeps every entry in place. */
  lemma DeleteMissingKeepsHistory(h: seq<SavedSession>, sessionId: string)
    requires forall s | s in h :: s.id != sessionId
    ensures DeleteSession(Holds(h), sessionId).0 == Holds(h)
  {
    WithoutAbsent(h, sessionId);
  }
}

=== FILE: local_store.dfy ===
/** The browser's `localStorage` as the two stores see it: one key whose
    value is either missing, unparsable as JSON, or a parsed array.  An
    empty string is falsy in the source and reads like a missing value. */
module LocalStore {

  datatype Stored<T> = Absent | Corrupt | Holds(items: seq<T>)

  /** The list a read yields: the parsed array when there is one, and the
      empty list when the value is missing or fails to parse. */
  function Read<T>(s: Stored<T>): (xs: seq<T>)
    ensures s.Holds? ==> xs == s.items
    ensures !s.Holds? ==> xs == []
  {
    match s
    case Holds(items) => items
    case _ => []
  }
}

=== FILE: pcm.dfy ===
/** PCM conversion of the voice bridge (`createBlob` and `decodeAudioData`
    in components/LiveVoiceInterface.tsx).  Microphone samples become
    16-bit signed integers packed little-endian and base64-encoded for the
    transport; inbound bytes are read back as 16-bit integers and scaled
    into floating-point samples.  Samples are modelled as reals: scaling a
    float32 by 32768 is exact, and NaN and infinities are not modelled. */
module Pcm {
  import opened Wrappers
  import Base64

  type byte = Base64.byte
  type int16 = x: int | -32768 <= x < 32768

  const InputSampleRate: nat := 16000
  const OutputSampleRate: nat := 24000
  const Scale: real := 32768.0
  const BlobMimeType: string := "audio/pcm;rate=16000"

  /** ECMAScript truncation toward zero of a finite number. */
  function Trunc(x: real): (n: int)
    ensures 0.0 <= x ==> 0 <= n && n as real <= x < n as real + 1.0
    ensures x < 0.0 ==> n <= 0 && n as real - 1.0 < x <= n as real
  {
    if x >= 0.0 then x.Floor else -((-x).Floor)
  }

  /** Storing an integer into an `Int16Array` element: reduction modulo
      2^16 into the signed range. */
  function WrapInt16(n: int): (v: int16)
    ensures (n - v) % 65536 == 0
    ensures -32768 <= n < 32768 ==> v == n
  {
    var u := n % 65536;
    if u >= 32768 then u - 65536 else u
  }

  /** The 16-bit value stored for one sample: the sample scaled by 32768,
      truncated toward zero and wrapped into the signed 16-bit range. */
  function SampleToInt16(s: real): int16 {
    WrapInt16(Trunc(s * Scale))
  }

  /** Inside [-1, 1) the stored value is the truncation itself, so it lies
      within one quantisation step of the scaled sample. */
  lemma SampleInRange(s: real)
    requires -1.0 <= s < 1.0
    ensures SampleToInt16(s) == Trunc(s * Scale)
    ensures -1.0 < SampleToInt16(s) as real - s * Scale < 1.0
  {
  }

  /** Full-scale positive input wraps around to the most negative value. */
  lemma FullScaleWraps()
    ensures SampleToInt16(1.0) == -32768
  {
    assert Trunc(1.0 * Scale) == 32768;
  }

  /** The two bytes of an `Int16Array` element in little-endian order. */
  function Int16ToBytes(v: int16): (b: seq<byte>)
    ensures |b| == 2
  {
    var u := v % 65536;
    [u % 256, u / 256]
  }

  /** The 16-bit signed value of a little-endian byte pair. */
  function BytesToInt16(lo: byte, hi: byte): int16 {
    var u := lo + 256 * hi;
    if u >= 32768 then u - 65536 else u
  }

  lemma Int16RoundTrip(v: int16)
    ensures var b := Int16ToBytes(v); BytesToInt16(b[0], b[1]) == v
  {
  }

  lemma BytePairRoundTrip(lo: byte, hi: byte)
    ensures Int16ToBytes(BytesToInt16(lo, hi)) == [lo, hi]
  {
  }

  /** The byte view (`int16.buffer`) of a sequence of 16-bit values. */
  function PackLE(vs: seq<int16>): (b: seq<byte>)
    ensures |b| == 2 * |vs|
    ensures forall i | 0 <= i < |vs| :: BytesToInt16(b[2 * i], b[2 * i + 1]) == vs[i]
  {
    if |vs| == 0 then []
    else
      Int16RoundTrip(vs[0]);
      Int16ToBytes(vs[0]) + PackLE(vs[1..])
  }

  /** The `Int16Array` view of an even-length byte buffer. */
  function UnpackLE(b: seq<byte>): (vs: seq<int16>)
    requires |b| % 2 == 0
    ensures |vs| == |b| / 2
    ensures forall i | 0 <= i < |vs| :: vs[i] == BytesToInt16(b[2 * i], b[2 * i + 1])
    decreases |b|
  {
    if |b| == 0 then []
    else
      var rest := UnpackLE(b[2..]);
      assert forall i | 0 <= i < |rest| :: b[2..][2 * i] == b[2 * i + 2] && b[2..][2 * i + 1] == b[2 * i + 3];
      [BytesToInt16(b[0], b[1])] + rest
  }

  /** Packing is injective: viewing the packed bytes again gives the
      original values. */
  lemma UnpackPack(vs: seq<int16>)
    ensures UnpackLE(PackLE(vs)) == vs
  {
  }

  /** Every even-length buffer is the packing of its 16-bit view. */
  lemma {:induction false} PackUnpack(b: seq<byte>)
    requires |b| % 2 == 0
    ensures PackLE(UnpackLE(b)) == b
    decreases |b|
  {
    if |b| > 0 {
      var vs := UnpackLE(b);
      assert vs[1..] == UnpackLE(b[2..]);
      PackUnpack(b[2..]);
      BytePairRoundTrip(b[0], b[1]);
      calc {
        PackLE(vs);
        Int16ToBytes(vs[0]) + PackLE(vs[1..]);
        [b[0], b[1]] + b[2..];
        b;
      }
    }
  }

  /** The 16-bit values `createBlob` stores for a frame. */
  function Quantize(frame: seq<real>): (vs: seq<int16>)
    ensures |vs| == |frame|
    ensures forall i | 0 <= i < |frame| :: vs[i] == SampleToInt16(frame[i])
  {
    seq(|frame|, i requires 0 <= i < |frame| => SampleToInt16(frame[i]))
  }

  /** The outbound media payload. */
  datatype Blob = Blob(data: string, mimeType: string)

  /** `createBlob`: two little-endian bytes per sample, base64-encoded, with
      the 16 kHz PCM tag. */
  function CreateBlob(frame: seq<real>): (blob: Blob)
    ensures blob.mimeType == BlobMimeType
    ensures |blob.data| == 4 * ((2 * |frame| + 2) / 3)
    ensures Base64.Decode(blob.data) == Some(PackLE(Quantize(frame)))
  {
    var bytes := PackLE(Quantize(frame));
    Base64.RoundTrip(bytes);
    Blob(Base64.Encode(bytes), BlobMimeType)
  }

  /** A mono buffer at the output rate. */
  datatype AudioBuffer = AudioBuffer(channel: seq<real>) {
    function Duration(): real {
      |channel| as real / OutputSampleRate as real
    }
  }

  /** The exceptions `decodeAudioData` can raise: the `Int16Array` view of an
      odd number of bytes is a RangeError, and `createBuffer` with zero
      frames is a NotSupportedError. */
  datatype DecodeError = OddByteLength | EmptyBuffer

  /** `decodeAudioData` for one channel at 24 kHz: each little-endian 16-bit
      value divided by 32768. */
  function DecodeAudioData(data: seq<byte>): (r: Result<AudioBuffer, DecodeError>)
    ensures r.Success? <==> |data| % 2 == 0 && |data| > 0
    ensures |data| % 2 == 1 ==> r == Failure(OddByteLength)
    ensures r.Success? ==>
      && |r.value.channel| == |data| / 2
      && r.value.Duration() > 0.0
      && forall i | 0 <= i < |data| / 2 ::
           -1.0 <= r.value.channel[i] < 1.0
           && r.value.channel[i] * Scale == BytesToInt16(data[2 * i], data[2 * i + 1]) as real
  {
    if |data| % 2 != 0 then Failure(OddByteLength)
    else if |data| == 0 then Failure(EmptyBuffer)
    else
      var vs := UnpackLE(data);
      Success(AudioBuffer(seq(|vs|, i requires 0 <= i < |vs| => vs[i] as real / Scale)))
  }

  /** Decoding packed 16-bit values gives each value divided by 32768. */
  lemma DecodePacked(vs: seq<int16>)
    requires |vs| > 0
    ensures var r := DecodeAudioData(PackLE(vs));
      && r.Success?
      && |r.value.channel| == |vs|
      && forall i | 0 <= i < |vs| :: r.value.channel[i] == vs[i] as real / Scale
  {
    var r := DecodeAudioData(PackLE(vs));
    forall i | 0 <= i < |vs|
      ensures r.value.channel[i] == vs[i] as real / Scale
    {
      assert r.value.channel[i] * Scale == vs[i] as real;
    }
  }

  /** Encoding a frame of samples in [-1, 1) and decoding the payload gives
      back every sample truncated to a multiple of 1/32768, so within one
      quantisation step of the original. */
  lemma FrameRoundTrip(frame: seq<real>)
    requires |frame| > 0
    requires forall i | 0 <= i < |frame| :: -1.0 <= frame[i] < 1.0
    ensures var bytes := PackLE(Quantize(frame));
      && Base64.Decode(CreateBlob(frame).data) == Some(bytes)
      && var r := DecodeAudioData(bytes);
      && r.Success?
      && |r.value.channel| == |frame|
      && forall i | 0 <= i < |frame| ::
           && r.value.channel[i] == Trunc(frame[i] * Scale) as real / Scale
           && -1.0 / Scale < r.value.channel[i] - frame[i] < 1.0 / Scale
  {
    var vs := Quantize(frame);
    DecodePacked(vs);
    var r := DecodeAudioData(PackLE(vs));
    forall i | 0 <= i < |frame|
      ensures r.value.channel[i] == Trunc(frame[i] * Scale) as real / Scale
      ensures -1.0 / Scale < r.value.channel[i] - frame[i] < 1.0 / Scale
    {
      SampleInRange(frame[i]);
      assert r.value.channel[i] == vs[i] as real / Scale;
    }
  }

  /** A frame holding the full-scale sample 1.0 does not survive the round
      trip: it comes back as -1.0. */
  lemma FullScaleRoundTrip()
    ensures var r := DecodeAudioData(PackLE(Quantize([1.0])));
      r.Success? && r.value.channel == [-1.0]
  {
    FullScaleWraps();
  }
}

=== FILE: playback.dfy ===
/** The playback scheduler and interruption logic of the voice bridge
    (`onmessage` in components/LiveVoiceInterface.tsx).  The state is the
    `nextStartTimeRef` clock and the `audioSourcesRef` set; device time and
    buffer durations are inputs, and buffer sources are abstract handles
    numbered in creation order. */
module Playback {

  type SourceId = nat

  /** Where a source sits on the output timeline. */
  datatype Slot = Slot(start: real, duration: real) {
    function End(): real {
      start + duration
    }
  }

  /** The scheduler clock, the active source set (each with its slot) and
      the handle the next created source will get. */
  datatype Playback = Playback(nextStart: real, active: map<SourceId, Slot>, nextId: SourceId)

  const Initial: Playback := Playback(0.0, map[], 0)

  predicate Disjoint(a: Slot, b: Slot) {
    a.End() <= b.start || b.End() <= a.start
  }

  /** Every active source was created by the scheduler, ends no later than
      the clock, and no two active sources overlap on the timeline. */
  predicate Valid(p: Playback) {
    && (forall id | id in p.active ::
          id < p.nextId && p.active[id].duration >= 0.0 && p.active[id].End() <= p.nextStart)
    && (forall a, b | a in p.active && b in p.active && a != b :: Disjoint(p.active[a], p.active[b]))
  }

  /** Lines 96-99: the clock moves up to device time if it lags behind it.
      This runs before the chunk is decoded, so it happens even when
      decoding then fails. */
  function Advance(p: Playback, now: real): (q: Playback)
    ensures q.nextStart >= p.nextStart && q.nextStart >= now
    ensures q.nextStart == p.nextStart || q.nextStart == now
    ensures q.active == p.active && q.nextId == p.nextId
  {
    p.(nextStart := if p.nextStart >= now then p.nextStart else now)
  }

  /** Lines 108-118: a new source starts at the clock, the clock moves past
      its end, and the source joins the active set. */
  function Start(p: Playback, duration: real): (q: Playback)
    requires duration >= 0.0
    ensures q.nextId == p.nextId + 1
    ensures q.active.Keys == p.active.Keys + {p.nextId}
    ensures q.active[p.nextId] == Slot(p.nextStart, duration)
    ensures q.nextStart == q.active[p.nextId].End()
    ensures forall id | id in p.active && id != p.nextId :: q.active[id] == p.active[id]
  {
    Playback(p.nextStart + duration, p.active[p.nextId := Slot(p.nextStart, duration)], p.nextId + 1)
  }

  /** Scheduling one decoded buffer that arrives at device time `now`. */
  function Schedule(p: Playback, now: real, duration: real): (q: Playback)
    requires duration >= 0.0
    ensures p.nextId in q.active
    ensures q.active[p.nextId].start == (if p.nextStart >= now then p.nextStart else now)
    ensures q.active[p.nextId].duration == duration
    ensures q.nextStart == q.active[p.nextId].End()
    ensures q.nextId == p.nextId + 1 && q.active.Keys == p.active.Keys + {p.nextId}
    ensures forall id | id in p.active && id != p.nextId :: q.active[id] == p.active[id]
  {
    Start(Advance(p, now), duration)
  }

  /** Lines 112-114: the `ended` listener removes its own source. */
  function Ended(p: Playback, id: SourceId): (q: Playback)
    ensures id !in q.active
    ensures forall other | other in p.active && other != id :: other in q.active && q.active[other] == p.active[other]
    ensures q.active.Keys <= p.active.Keys
    ensures q.nextStart == p.nextStart && q.nextId == p.nextId
  {
    p.(active := p.active - {id})
  }

  /** Lines 125-131: every active source is stopped (stop errors are
      swallowed), the set is cleared and the clock is reset to 0. */
  function Interrupt(p: Playback): (r: (Playback, set<SourceId>))
    ensures r.1 == p.active.Keys
    ensures r.0.active == map[] && r.0.nextStart == 0.0 && r.0.nextId == p.nextId
  {
    (Playback(0.0, map[], p.nextId), p.active.Keys)
  }

  lemma AdvancePreservesValid(p: Playback, now: real)
    requires Valid(p)
    ensures Valid(Advance(p, now))
  {
  }

  /** A new source never overlaps an active one: it starts at or after the
      clock, which every active source ends before. */
  lemma StartPreservesValid(p: Playback, duration: real)
    requires Valid(p) && duration >= 0.0
    ensures Valid(Start(p, duration))
  {
    var q := Start(p, duration);
    forall a, b | a in q.active && b in q.active && a != b
      ensures Disjoint(q.active[a], q.active[b])
    {
      if a != p.nextId && b != p.nextId {
        assert Disjoint(p.active[a], p.active[b]);
      } else if a == p.nextId {
        assert q.active[b].End() <= p.nextStart;
      } else {
        assert q.active[a].End() <= p.nextStart;
      }
    }
  }

  lemma EndedPreservesValid(p: Playback, id: SourceId)
    requires Valid(p)
    ensures Valid(Ended(p, id))
  {
  }

  lemma InterruptPreservesValid(p: Playback)
    ensures Valid(Interrupt(p).0)
  {
  }

  /** A second interrupt stops nothing and changes nothing. */
  lemma InterruptIdempotent(p: Playback)
    ensures var q := Interrupt(p).0; Interrupt(q) == (q, {})
  {
    assert Interrupt(p).0.active.Keys == {};
  }

  /** After an interrupt the next buffer starts exactly at device time,
      not at a stale future clock value. */
  lemma StartsAtNowAfterInterrupt(p: Playback, now: real, duration: real)
    requires now >= 0.0 && duration >= 0.0
    ensures var q := Interrupt(p).0; Schedule(q, now, duration).active[q.nextId].start == now
  {
  }

  /** One buffer of an in-order stream: the device time at which its
      message arrived and its duration. */
  datatype Arrival = Arrival(now: real, duration: real)

  predicate Durations(arrivals: seq<Arrival>) {
    forall k | 0 <= k < |arrivals| :: arrivals[k].duration >= 0.0
  }

  /** The slots given to a stream of buffers scheduled one after another. */
  function Trace(p: Playback, arrivals: seq<Arrival>): (t: seq<Slot>)
    requires Durations(arrivals)
    ensures |t| == |arrivals|
    decreases |arrivals|
  {
    if |arrivals| == 0 then []
    else
      var q := Schedule(p, arrivals[0].now, arrivals[0].duration);
      [q.active[p.nextId]] + Trace(q, arrivals[1..])
  }

  /** Each buffer starts at the later of the previous end and its arrival
      time: so it never starts before it arrives, never overlaps its
      predecessor, and follows it with no gap when it arrived in time. */
  lemma {:induction false} TraceShape(p: Playback, arrivals: seq<Arrival>)
    requires Durations(arrivals)
    ensures |arrivals| > 0 ==>
      Trace(p, arrivals)[0].start == (if p.nextStart >= arrivals[0].now then p.nextStart else arrivals[0].now)
    ensures forall k | 0 <= k < |arrivals| ::
      Trace(p, arrivals)[k].duration == arrivals[k].duration
      && Trace(p, arrivals)[k].start >= arrivals[k].now
    ensures forall k | 0 <= k < |arrivals| - 1 ::
      var t := Trace(p, arrivals);
      t[k + 1].start == (if t[k].End() >= arrivals[k + 1].now then t[k].End() else arrivals[k + 1].now)
    decreases |arrivals|
  {
    if |arrivals| > 0 {
      var q := Schedule(p, arrivals[0].now, arrivals[0].duration);
      var t := Trace(p, arrivals);
      TraceShape(q, arrivals[1..]);
      assert t[1..] == Trace(q, arrivals[1..]);
      assert q.nextStart == t[0].End();
      forall k | 0 <= k < |arrivals| - 1
        ensures t[k + 1].start == (if t[k].End() >= arrivals[k + 1].now then t[k].End() else arrivals[k + 1].now)
      {
        if k > 0 {
          assert t[k] == t[1..][k - 1] && t[k + 1] == t[1..][k];
          assert arrivals[k + 1] == arrivals[1..][k];
        }
      }
    }
  }

  /** Monotone, non-overlapping and gapless scheduling of a whole stream. */
  lemma TraceOrdered(p: Playback, arrivals: seq<Arrival>)
    requires Durations(arrivals)
    ensures var t := Trace(p, arrivals);
      forall k | 0 <= k < |arrivals| - 1 ::
        && t[k].start <= t[k + 1].start
        && t[k].End() <= t[k + 1].start
        && (arrivals[k + 1].now <= t[k].End() ==> t[k + 1].start == t[k].End())
  {
    TraceShape(p, arrivals);
  }

  /** Two 100 ms buffers (2400 frames at 24 kHz) delivered back to back:
      the second starts exactly 100 ms after the first. */
  lemma BackToBackExample(p: Playback, now: real)
    ensures var t := Trace(p, [Arrival(now, 0.1), Arrival(now, 0.1)]);
      t[1].start == t[0].start + 0.1
  {
    TraceShape(p, [Arrival(now, 0.1), Arrival(now, 0.1)]);
  }
}

=== FILE: suggestions.dfy ===
/** The suggestion store (services/suggestionsService.ts): a prepend-only
    list of user-proposed entities under one storage key.  The two clock
    readings `addSuggestion` takes are inputs. */
module Suggestions {
  import opened Wrappers
  import opened LocalStore

  datatype Suggestion = Suggestion(
    id: string,
    name: string,
    sector: Option<string>,
    reason: Option<string>,
    timestamp: nat)

  /** The fields the caller supplies: everything but the id and timestamp. */
  datatype Draft = Draft(name: string, sector: Option<string>, reason: Option<string>)

  predicate IsDigit(c: char) {
    '0' <= c <= '9'
  }

  /** The decimal digits of a millisecond timestamp, most significant first,
      as a number's string conversion gives them. */
  function DecimalString(n: nat): (s: string)
    ensures |s| > 0
    ensures forall i | 0 <= i < |s| :: IsDigit(s[i])
    ensures |s| > 1 ==> s[0] != '0'
  {
    if n < 10 then [('0' as int + n) as char]
    else DecimalString(n / 10) + [('0' as int + n % 10) as char]
  }

  /** The number a string of decimal digits denotes. */
  function DecimalValue(s: string): nat
    requires forall i | 0 <= i < |s| :: IsDigit(s[i])
  {
    if |s| == 0 then 0
    else
      assert IsDigit(s[|s| - 1]);
      DecimalValue(s[..|s| - 1]) * 10 + (s[|s| - 1] as int - '0' as int)
  }

  /** The id string denotes the clock reading it was made from. */
  lemma {:induction false} DecimalRoundTrip(n: nat)
    ensures DecimalValue(DecimalString(n)) == n
    decreases n
  {
    if n >= 10 {
      DecimalRoundTrip(n / 10);
      var s := DecimalString(n);
      assert s[..|s| - 1] == DecimalString(n / 10);
    }
  }

  /** Different clock readings give different ids. */
  lemma DecimalInjective(m: nat, n: nat)
    requires DecimalString(m) == DecimalString(n)
    ensures m == n
  {
    DecimalRoundTrip(m);
    DecimalRoundTrip(n);
  }

  /** `getSuggestions` (lines 5-13): the stored list, empty when missing or
      unparsable. */
  function GetSuggestions(store: Stored<Suggestion>): (r: seq<Suggestion>)
    ensures !store.Holds? ==> r == []
    ensures store.Holds? ==> r == store.items
  {
    Read(store)
  }

  /** `addSuggestion` (lines 15-28): the caller's fields plus an id made
      from one clock reading and a timestamp from a second one, stored in
      front of the current list. */
  function AddSuggestion(store: Stored<Suggestion>, draft: Draft, idClock: nat, stampClock: nat): (r: (Suggestion, Stored<Suggestion>))
    ensures r.0.name == draft.name && r.0.sector == draft.sector && r.0.reason == draft.reason
    ensures forall i | 0 <= i < |r.0.id| :: IsDigit(r.0.id[i])
    ensures DecimalValue(r.0.id) == idClock && r.0.timestamp == stampClock
    ensures |r.0.id| > 0 && (|r.0.id| > 1 ==> r.0.id[0] != '0')
    ensures r.1.Holds? && |r.1.items| == |GetSuggestions(store)| + 1
    ensures r.1.items[0] == r.0 && r.1.items[1..] == GetSuggestions(store)
  {
    DecimalRoundTrip(idClock);
    var suggestion := Suggestion(DecimalString(idClock), draft.name, draft.sector, draft.reason, stampClock);
    (suggestion, Holds([suggestion] + GetSuggestions(store)))
  }

  /** `clearSuggestions` (lines 30-32): the key is removed. */
  function ClearSuggestions(store: Stored<Suggestion>): (r: Stored<Suggestion>)
    ensures GetSuggestions(r) == []
  {
    Absent
  }

  /** Reading after an add gives the new record followed by the previous
      list, which a missing or corrupt value reads as empty. */
  lemma AddThenGet(store: Stored<Suggestion>, draft: Draft, idClock: nat, stampClock: nat)
    ensures var (added, next) := AddSuggestion(store, draft, idClock, stampClock);
      GetSuggestions(next) == [added] + GetSuggestions(store)
  {
  }
}

=== FILE: wrappers.dfy ===
/** Wrappers shared by the model: a value that may be
    missing, and a computation that may fail with an error value. */
module Wrappers {

  datatype Option<+T> = None | Some(value: T) {

    function GetOr(default: T): T {
      match this
      case Some(v) => v
      case None => default
    }
  }

  datatype Result<+R, +E> = Success(value: R) | Failure(error: E) {

    function ToOption(): Option<R> {
      match this
      case Success(v) => Some(v)
      case Failure(_) => None
    }
  }
}
